=== FILE: README.md ===
# EEPROM memory engine — a Dafny model

This project models the memory engine of the `EEPROM` chip of Digital Logic
Sim CE (`Assets/Scripts/Chip/EEPROM.cs`): the process-wide store of chip
contents keyed by chip id, the lazy sizing of a chip's buffer, the per-tick
bus protocol of `ProcessOutput` (address decode, big-endian word read, output
drive, conditional write-back, save on change), `FlashBinary`'s wholesale
replacement of a buffer, and the metadata that `HandleSaveMetadata` records
and `HandleLoad` restores.

Modules, one per concern:

- `Radix` (`radix.dfy`): the most-significant-first fold `v := b*v + d` that
  the chip uses both for bus bits (base 2) and for memory bytes (base 256),
  its inverse `Digits`, and the round trips between them.
- `Memory` (`memory.dfy`): byte buffers (`None` is a null array), the
  bounds-guarded word read and write, the output-pin signals, and methods
  that mirror three loops of `ProcessOutput`: the word read (lines 172-180),
  the output drive (lines 183-185) and the write-back (lines 195-202). The
  address and data-in loops are `Bus.FoldBits`.
- `Bus` (`bus.dfy`): one tick, `Step`, over a single buffer, the
  `ProcessOutput` method built from the loops, and the protocol lemmas.
- `Store` (`store.dfy`): the `loadedMemoryContents` map, the `content`
  property, `InitMemoryContent` and `FlashBinary`.
- `Eeprom` (`eeprom.dfy`): the chip record, one tick against the shared
  store, and metadata save/load.
- `Pins` (`pins.dfy`): the slot arithmetic of `InitPins`, which holds the
  one defect recorded under Findings.

The input vector is `[write, address bits, data bits]`, each bus most
significant bit first, with data-in bit `i` at input `1 + 8*addrBusBytes + i`
(the layout `ProcessOutput` reads). Buffers have any length: `FlashBinary`
and `HandleLoad` install whatever they are given, so reads and writes are
specified for every length with the per-byte exception handling the code
has. Widths are limited to at most 3 bytes per bus and pin levels to 0 and 1;
under those bounds no C# `int` in the tick can overflow, so unbounded
integers model it exactly.

Behaviour of the code that the model keeps as written:

- An existing buffer is never resized or cleared when the widths change; only
  a missing one is allocated (`EEPROM.cs:44-45`).
- A read whose word runs past the buffer does not fall back to zero. The
  loop shifts before each access, so a read that faults at byte `k` returns
  the `k` bytes fetched so far shifted one more byte. That value is 0 when the
  first byte is already out of range or the buffer is null, and also whenever
  the fetched bytes are themselves zero (`Memory.ReadWord`).
- A write that runs past the buffer still stores its in-range bytes.
- On a write-enabled tick (write pin high, line 186), the save happens
  whenever the data-in word differs from the word read and `saveChanges` is
  set, even when no byte could be stored. With a null buffer
  the word read is 0, so every write-enabled tick whose data-in word is not
  zero saves again (`Bus.NullContentSavesEveryTick`).
- The code has no width check of its own. Bad widths fault elsewhere:
  when `InitPins` builds the pins (line 49), it throws for every negative
  width. Depending on the widths, the throw comes from `new Pin[...]` at
  line 61 or 76, or from a pin index below zero or past the array in the
  loops of lines 64-74. A 4-byte address bus asks line 45 for
  `2^32 * dataBusBytes` bytes. The model's `requires` clauses exclude these widths rather than
  modelling the faults (see "Left out").

## Model

| member | source | states |
|---|---|---|
| Store.SetContent | Assets/Scripts/Chip/EEPROM.cs:9-13 | setting `content` makes a later get for the same id return the new buffer; every other id keeps its entry, and no key other than the id is added |
| Store.InitMemoryContent | Assets/Scripts/Chip/EEPROM.cs:39-46 | a missing or null entry becomes a zero-filled buffer of `2^(8*addrBusBytes) * dataBusBytes` bytes; an existing buffer of any length is left as it is; other ids untouched |
| Store.FreshBufferCoversAddressSpace | Assets/Scripts/Chip/EEPROM.cs:45 | in a freshly sized buffer every address the bus can carry selects a whole word inside the buffer, and that word reads as 0 |
| Store.FlashBinary | Assets/Scripts/Chip/EEPROM.cs:145-149 | the chip's entry becomes exactly the given bytes, of any length, with no check against the widths; other ids untouched; the new content is saved |
| Store.FlashedImageIsNeverResized | Assets/Scripts/Chip/EEPROM.cs:145-149 | a flashed image of any length survives a later `InitMemoryContent` unchanged |
| Bus.Address | Assets/Scripts/Chip/EEPROM.cs:165-169 | the decoded address of a 0/1 address bus lies in `[0, 2^(8*addrBusBytes))` |
| Radix.ValueOfDigits | Assets/Scripts/Chip/EEPROM.cs:165-169 | every number below `b^n` is the fold of its own `n` digits, so the MSB-first decode reaches every address in range |
| Radix.DigitsOfValue | Assets/Scripts/Chip/EEPROM.cs:165-169 | the digits of a decoded bit vector are that bit vector, so decoding loses nothing |
| Radix.ValueInjective | Assets/Scripts/Chip/EEPROM.cs:165-169 | two bit vectors of one length decode to the same address exactly when they are equal; with the two lemmas above, decode is a bijection onto the address range |
| Bus.FoldBits | Assets/Scripts/Chip/EEPROM.cs:165-169 | the shift-and-add loop over a run of pins computes the MSB-first fold of those pins; the same loop serves the data-in bus at lines 188-192 |
| Bus.NewData | Assets/Scripts/Chip/EEPROM.cs:188-192 | the data-in word of a 0/1 bus is below `256^dataBusBytes` |
| Memory.ReadWord | Assets/Scripts/Chip/EEPROM.cs:170-180 | the read is below `256^width`; inside the buffer it is the big-endian value of the word's bytes; on a null buffer or with the first byte out of range it is 0 |
| Memory.ReadData | Assets/Scripts/Chip/EEPROM.cs:171-180 | the shift-then-fetch loop, stopping at the first faulting access, computes the closed-form read, partial shifted value included |
| Memory.OutputSignals | Assets/Scripts/Chip/EEPROM.cs:183-185 | there is one signal per data bit, and signal `i` is either 0 or `2^(n-1-i)` |
| Memory.OutputsCarryWord | Assets/Scripts/Chip/EEPROM.cs:183-185 | output `i` is non-zero exactly when bit `n-1-i` of the word is set, and reading the outputs back MSB-first gives the word |
| Memory.DriveOutputs | Assets/Scripts/Chip/EEPROM.cs:183-185 | the output loop sends `data & (1 << (n-1-i))` to pin `i` |
| Bus.OutputsShowPreWriteWord | Assets/Scripts/Chip/EEPROM.cs:182-185 | a tick's outputs carry the word stored before that tick's write, whether or not it writes |
| Memory.WriteWord | Assets/Scripts/Chip/EEPROM.cs:194-202 | the write keeps the buffer's nullness and length and leaves every byte outside the addressed word unchanged |
| Memory.WrittenBytes | Assets/Scripts/Chip/EEPROM.cs:195-201 | every byte of the word that exists gets `(v >> 8s) & 0xFF`, low byte at the highest index; this holds also when only part of the word is in range, and the missing bytes are skipped |
| Memory.WriteBack | Assets/Scripts/Chip/EEPROM.cs:195-202 | the downward store-and-shift loop, skipping faulting stores, computes the closed-form write |
| Memory.ReadAfterWrite | Assets/Scripts/Chip/EEPROM.cs:194-202 | a word written inside the buffer reads back as the written value |
| Memory.WriteOfReadIsIdentity | Assets/Scripts/Chip/EEPROM.cs:194 | when the word lies inside the buffer, writing back the word just read leaves the buffer unchanged, so skipping a write of an equal word loses nothing |
| Bus.Step | Assets/Scripts/Chip/EEPROM.cs:164-208 | a tick drives one signal per data bit; it never makes a buffer null or changes its length; the content changes only when the write pin is high and the new word differs from the one read; a save happens exactly when such a write is committed and `saveChanges` is set |
| Bus.StepWriteRoundTrip | Assets/Scripts/Chip/EEPROM.cs:186-202 | after a write-enabled tick at a word inside the buffer, that word reads as the data-in word |
| Bus.StepFrame | Assets/Scripts/Chip/EEPROM.cs:194-202 | a tick leaves every byte outside the addressed word unchanged; on a committed write each existing byte of the word holds the matching byte of the new word |
| Bus.SaveMeansChange | Assets/Scripts/Chip/EEPROM.cs:194-206 | when the word lies inside the buffer, a save is only issued with a real change of content |
| Bus.RepeatedStepIsQuiet | Assets/Scripts/Chip/EEPROM.cs:186-206 | when the word lies inside the buffer, evaluating the same inputs twice stores and saves nothing the second time |
| Bus.NullContentSavesEveryTick | Assets/Scripts/Chip/EEPROM.cs:194-206 | with a null buffer, a write-enabled tick with a non-zero data-in word saves each time, although the buffer stays null |
| Bus.ProcessOutput | Assets/Scripts/Chip/EEPROM.cs:164-208 | the method built from the code's loops produces exactly the outputs, content and save of `Step` |
| Bus.WorkedTick | Assets/Scripts/Chip/EEPROM.cs:164-208 | example: image `[0x10,0x20,0x30,0x40]`, address 2, write `0x55` shows `0x30`, stores `0x55` at index 2 and saves once; repeating the tick saves nothing |
| Eeprom.Tick | Assets/Scripts/Chip/EEPROM.cs:164-208 | a chip's tick drives one signal per data bit, signal `i` being bit `n-1-i` of the word stored before the write masked in place (`data & (1 << (n-1-i))`), so the outputs read back as that word; an existing entry for its id becomes the content after `Step`, a missing entry stays missing, and no other id's entry changes; exactly one save is issued when a write is committed with `saveChanges` set, none otherwise, and it carries the content after the write |
| Store.Content | Assets/Scripts/Chip/EEPROM.cs:11 | the getter returns a present id's entry as it is, null or not, and null for an id with no entry |
| Eeprom.HandleSaveMetadata | Assets/Scripts/Chip/EEPROM.cs:227-232 | saving issues a save of the id's current content and records the chip's two widths and its id |
| Eeprom.SameIdSharesBuffer | Assets/Scripts/Chip/EEPROM.cs:7-13 | two chips with the same id share one buffer, so a word written through one is what the other reads |
| Eeprom.HandleLoad | Assets/Scripts/Chip/EEPROM.cs:214-225 | empty metadata changes nothing; otherwise both widths and the id come from the record, `saveChanges` is kept, the id's entry becomes what the save system returned, and other ids are untouched |
| Eeprom.SaveThenLoadRestores | Assets/Scripts/Chip/EEPROM.cs:227-232 | loading the record `HandleSaveMetadata` wrote restores exactly the widths and id; if the save system returns what it was given, the content is restored too |
| Pins.PlaceInputPins | Assets/Scripts/Chip/EEPROM.cs:61-74 | the slot-assignment loops build the closed-form layout, including the out-of-range fault of the data loop |
| Pins.AsWrittenCounterexamples | Assets/Scripts/Chip/EEPROM.cs:73 | with widths (2, 1) slot 17, which the tick reads as data-in bit 0, stays null; with widths (1, 2) the data loop indexes past the array |
| Pins.AsWrittenAgreesOnlyForEqualWidths | Assets/Scripts/Chip/EEPROM.cs:73 | the layout as written equals the intended one exactly when both buses are equally wide or there is no data bus |
| Pins.CorrectedLayoutMatchesBus | Assets/Scripts/Chip/EEPROM.cs:186-191 | the corrected layout never faults and has the write pin at slot 0, address bit `i` at `1+i` and data-in bit `i` at `1+8*addrBusBytes+i`, the slots the tick reads |

## Left out

- Pin objects, pin names and pin placement, including the float geometry of `InitPins` and `UpdatePinPosition` (`EEPROM.cs:48-124`). These are Unity plumbing. Only the slot arithmetic of lines 61-74 is modelled.
- Mouse and menu handling (`EEPROM.cs:126-129`). This is UI.
- The file dialogs and file I/O of `OpenAndFlashBinary`, `DumpBinary` and `FlashBinary`'s `ReadAllBytes` (`EEPROM.cs:131-162`). These touch the filesystem. `FlashBinary` takes the file's bytes as a parameter, and `DumpBinary` only hands out the current buffer.
- `SaveSystem` and `JsonUtility`. These are outside code. A call to `SaveEEPROMContent` is a `SaveEvent` value. `LoadEEPROMContent`'s result is a parameter of `HandleLoad`. The metadata JSON is the `Metadata` record, and null or empty text is `None`.
- `Debug.Log` diagnostics. They have no effect on state.
- The default id built at `EEPROM.cs:42`. The id is an opaque string that is assumed already set.
- The Unity order of `Start` and `HandleLoad`. This belongs to the engine lifecycle.
- Eeprom.HandleLoad: does not model the `InitPins` call at line 223. It installs `loaded` for every record, whereas the code stops before `LoadEEPROMContent` (line 224) whenever that call throws, leaving the id's entry as it was (the widths and id of lines 219-221 are already assigned). This happens in two cases. First, when `InitPins` builds the pins, a record with a negative width makes it throw at line 61, in the loops of lines 64-74, or at line 76. Second, with the layout of line 73 as written, when the two widths differ, `InitPins` throws: line 73 indexes past the array, or `UpdatePinPosition` dereferences a null slot at line 118. The load then stops before `LoadEEPROMContent` (line 224). See Findings.
- Bus.Step: samples the pins once per tick, and assumes that `ReceiveSignal` (line 184) changes neither this chip's inputs nor the content store. The code reads the write pin (line 186) and the data-in pins (line 191) after driving the outputs. It also re-reads `content` from the shared map at every access (lines 175, 197, 205). A reaction to the outputs that changed those inputs, or another chip with the same id ticking in between, is not modelled. `Eeprom.SameIdSharesBuffer` relies on the same assumption: ticks run one after another.
- Bus.Step: requires widths of at most 3 bytes and pin levels 0 or 1. Wider buses overflow C# `int`, and the 4-byte address bus implies a 2^32-entry allocation; wrap-around is not modelled. Negative widths from a metadata record are excluded too; `Eeprom.HandleLoad` accepts them (see its line).
- Store.InitMemoryContent: requires widths of at most 3 bytes, the geometry `Bus.Step` accepts, so that every buffer it sizes belongs to a chip that can tick. Line 45 computes the size in `long`, so it does not itself overflow for a wider data bus.
- Eeprom.Tick: requires the chip's widths to be at most 3 bytes, and the pin vector to have the chip's shape with every level 0 or 1, as `Bus.Step` does.
- `Assets/Scripts/UI/ImportButton.cs`. It is UI and file-picker wiring.
- `Assets/Scripts/Chip/Interfaces/ICustomSaveLogic.cs`. It is an interface with no behaviour.

## Findings

| source | as written | input that shows it | evidently intended | confidence | as-written member | corrected member |
|---|---|---|---|---|---|---|
| Assets/Scripts/Chip/EEPROM.cs:73 | data-in pin `i` is stored at slot `i + 8*dataBusBytes + 1` | addrBusBytes = 2, dataBusBytes = 1: slot 17 stays null, and the tick reads it as data-in bit 0 (line 191). addrBusBytes = 1, dataBusBytes = 2: data-in pin 8 goes to slot 25 of a 25-slot array. Either way `InitPins` throws. With (2, 1), line 118 dereferences null slot 17. With (1, 2), line 73 raises IndexOutOfRange. So `Start` stops before `InitMemoryContent` (line 36), and `HandleLoad` stops before `LoadEEPROMContent` (line 224) | slot `i + 8*addrBusBytes + 1`, as lines 118 and 191 use | high; not executed | Pins.AsWrittenCounterexamples | Pins.CorrectedLayoutMatchesBus |

The as-written and intended layouts agree exactly when the two buses are
equally wide, as in the default 2-byte chip, or when there is no data bus
(`Pins.AsWrittenAgreesOnlyForEqualWidths`). The rest of the model uses the
intended layout.

=== FILE: bus.dfy ===
/** One evaluation of the chip, `ProcessOutput`
    (Assets/Scripts/Chip/EEPROM.cs:164-208), over a single content buffer.

    The input vector is `[write, address bits, data bits]`, each bus most
    significant bit first: the write pin is input 0, address bit `i` is input
    `1 + i` and data-in bit `i` is input `1 + 8 * addrBusBytes + i`. */
module Bus {
  import opened Wrappers
  import opened Radix
  import opened Memory

  /** An input vector of the chip's shape whose every pin is low or high. */
  predicate WellFormedPins(pins: seq<int>, addrBusBytes: nat, dataBusBytes: nat)
  {
    && |pins| == 1 + 8 * addrBusBytes + 8 * dataBusBytes
    && IsDigits(2, pins)
  }

  /** The address on the bus (lines 165-169). */
  function Address(pins: seq<int>, addrBusBytes: nat, dataBusBytes: nat): (address: nat)
    requires WellFormedPins(pins, addrBusBytes, dataBusBytes)
    ensures address < Pow(2, 8 * addrBusBytes)
  {
    var bits := pins[1..1 + 8 * addrBusBytes];
    assert IsDigits(2, bits);
    Value(2, bits)
  }

  /** The word on the data-in bus (lines 188-192). */
  function NewData(pins: seq<int>, addrBusBytes: nat, dataBusBytes: nat): (word: nat)
    requires WellFormedPins(pins, addrBusBytes, dataBusBytes)
    ensures word < Pow(256, dataBusBytes)
  {
    var bits := pins[1 + 8 * addrBusBytes..];
    assert IsDigits(2, bits);
    BitsPerByte(dataBusBytes);
    Value(2, bits)
  }

  /** Byte offset of the addressed word (line 170). */
  function Index(pins: seq<int>, addrBusBytes: nat, dataBusBytes: nat): nat
    requires WellFormedPins(pins, addrBusBytes, dataBusBytes)
  {
    Address(pins, addrBusBytes, dataBusBytes) * dataBusBytes
  }

  /** The word stored at the addressed location before the tick writes. */
  function OldData(content: Buffer, pins: seq<int>, addrBusBytes: nat, dataBusBytes: nat): nat
    requires WellFormedPins(pins, addrBusBytes, dataBusBytes)
  {
    ReadWord(content, Index(pins, addrBusBytes, dataBusBytes), dataBusBytes)
  }

  /** The tick commits a write: write pin high and a different word. */
  predicate WriteCommitted(content: Buffer, pins: seq<int>, addrBusBytes: nat, dataBusBytes: nat)
    requires WellFormedPins(pins, addrBusBytes, dataBusBytes)
  {
    pins[0] > 0 && NewData(pins, addrBusBytes, dataBusBytes) != OldData(content, pins, addrBusBytes, dataBusBytes)
  }

  /** What one tick produces: output signals, the content afterwards, and
      whether the content was handed to the save system. */
  datatype StepResult = StepResult(outputs: seq<int>, content: Buffer, saved: bool)

  /** One evaluation of the chip. */
  function Step(content: Buffer, pins: seq<int>, addrBusBytes: nat, dataBusBytes: nat, saveChanges: bool): (r: StepResult)
    requires ValidGeometry(addrBusBytes, dataBusBytes)
    requires WellFormedPins(pins, addrBusBytes, dataBusBytes)
    ensures |r.outputs| == 8 * dataBusBytes
    ensures r.content.None? <==> content.None?
    ensures r.content.Some? ==> |r.content.value| == |content.value|
    ensures r.content != content ==> WriteCommitted(content, pins, addrBusBytes, dataBusBytes)
    ensures r.saved <==> saveChanges && WriteCommitted(content, pins, addrBusBytes, dataBusBytes)
  {
    var index := Index(pins, addrBusBytes, dataBusBytes);
    var data := OldData(content, pins, addrBusBytes, dataBusBytes);
    var outputs := OutputSignals(data, 8 * dataBusBytes);
    if WriteCommitted(content, pins, addrBusBytes, dataBusBytes) then
      var newData := NewData(pins, addrBusBytes, dataBusBytes);
      StepResult(outputs, WriteWord(content, index, dataBusBytes, newData), saveChanges)
    else
      StepResult(outputs, content, false)
  }

  /** The output pins always show the word stored before this tick's write,
      bit for bit, most significant first. */
  lemma OutputsShowPreWriteWord(content: Buffer, pins: seq<int>, addrBusBytes: nat, dataBusBytes: nat, saveChanges: bool)
    requires ValidGeometry(addrBusBytes, dataBusBytes)
    requires WellFormedPins(pins, addrBusBytes, dataBusBytes)
    ensures Value(2, Levels(Step(content, pins, addrBusBytes, dataBusBytes, saveChanges).outputs))
            == OldData(content, pins, addrBusBytes, dataBusBytes)
  {
    var data := OldData(content, pins, addrBusBytes, dataBusBytes);
    BitsPerByte(dataBusBytes);
    OutputsCarryWord(data, 8 * dataBusBytes);
  }

  /** After a write-enabled tick at a word inside the buffer, that word
      reads back as the word on the data-in bus, whether or not the tick had
      to store anything. */
  lemma StepWriteRoundTrip(content: Buffer, pins: seq<int>, addrBusBytes: nat, dataBusBytes: nat, saveChanges: bool)
    requires ValidGeometry(addrBusBytes, dataBusBytes)
    requires WellFormedPins(pins, addrBusBytes, dataBusBytes)
    requires pins[0] > 0
    requires InBounds(content, Index(pins, addrBusBytes, dataBusBytes), dataBusBytes)
    ensures var r := Step(content, pins, addrBusBytes, dataBusBytes, saveChanges);
      ReadWord(r.content, Index(pins, addrBusBytes, dataBusBytes), dataBusBytes)
      == NewData(pins, addrBusBytes, dataBusBytes)
  {
    if WriteCommitted(content, pins, addrBusBytes, dataBusBytes) {
      ReadAfterWrite(content, Index(pins, addrBusBytes, dataBusBytes), dataBusBytes,
                     NewData(pins, addrBusBytes, dataBusBytes));
    }
  }

  /** A tick touches no byte outside the addressed word; inside it, every
      byte that exists holds the matching byte of the new word. */
  lemma StepFrame(content: Buffer, pins: seq<int>, addrBusBytes: nat, dataBusBytes: nat, saveChanges: bool)
    requires ValidGeometry(addrBusBytes, dataBusBytes)
    requires WellFormedPins(pins, addrBusBytes, dataBusBytes)
    requires content.Some?
    ensures var r := Step(content, pins, addrBusBytes, dataBusBytes, saveChanges).content.value;
      var index := Index(pins, addrBusBytes, dataBusBytes);
      && (forall j :: 0 <= j < |r| && !(index <= j < index + dataBusBytes) ==> r[j] == content.value[j])
      && (WriteCommitted(content, pins, addrBusBytes, dataBusBytes) ==>
            forall j :: index <= j < index + dataBusBytes && j < |r| ==>
              r[j] == (NewData(pins, addrBusBytes, dataBusBytes) / Pow(256, index + dataBusBytes - 1 - j)) % 256)
  {
    if WriteCommitted(content, pins, addrBusBytes, dataBusBytes) {
      WrittenBytes(content, Index(pins, addrBusBytes, dataBusBytes), dataBusBytes,
                   NewData(pins, addrBusBytes, dataBusBytes));
    }
  }

  /** Inside the buffer a committed write really changes the content, so a
      save is only ever issued for a real change. */
  lemma SaveMeansChange(content: Buffer, pins: seq<int>, addrBusBytes: nat, dataBusBytes: nat, saveChanges: bool)
    requires ValidGeometry(addrBusBytes, dataBusBytes)
    requires WellFormedPins(pins, addrBusBytes, dataBusBytes)
    requires InBounds(content, Index(pins, addrBusBytes, dataBusBytes), dataBusBytes)
    ensures var r := Step(content, pins, addrBusBytes, dataBusBytes, saveChanges);
      r.saved ==> r.content != content
  {
    if WriteCommitted(content, pins, addrBusBytes, dataBusBytes) {
      StepWriteRoundTrip(content, pins, addrBusBytes, dataBusBytes, saveChanges);
    }
  }

  /** Evaluating the same inputs a second time, with the addressed word
      inside the buffer, stores nothing and saves nothing. */
  lemma RepeatedStepIsQuiet(content: Buffer, pins: seq<int>, addrBusBytes: nat, dataBusBytes: nat, saveChanges: bool)
    requires ValidGeometry(addrBusBytes, dataBusBytes)
    requires WellFormedPins(pins, addrBusBytes, dataBusBytes)
    requires InBounds(content, Index(pins, addrBusBytes, dataBusBytes), dataBusBytes)
    ensures var once := Step(content, pins, addrBusBytes, dataBusBytes, saveChanges);
      var twice := Step(once.content, pins, addrBusBytes, dataBusBytes, saveChanges);
      twice.content == once.content && !twice.saved
  {
    if pins[0] > 0 {
      StepWriteRoundTrip(content, pins, addrBusBytes, dataBusBytes, saveChanges);
    }
  }

  /** With a null buffer every write-enabled tick whose data-in word is not
      zero is reported as a change and, with `saveChanges`, saved again,
      although no byte can be stored. */
  lemma NullContentSavesEveryTick(pins: seq<int>, addrBusBytes: nat, dataBusBytes: nat)
    requires ValidGeometry(addrBusBytes, dataBusBytes)
    requires WellFormedPins(pins, addrBusBytes, dataBusBytes)
    requires pins[0] > 0 && NewData(pins, addrBusBytes, dataBusBytes) != 0
    ensures var r := Step(None, pins, addrBusBytes, dataBusBytes, true);
      r.saved && r.content == None
  {
  }

  /** A worked tick: a four-byte image `[0x10, 0x20, 0x30, 0x40]` with an
      8-bit address bus and one data byte. With the write pin high, address
      2 and data-in word `0x55` on the buses, the outputs show `0x30`, index
      2 becomes `0x55` and the content is saved once; the same inputs again
      save nothing. */
  lemma WorkedTick()
    ensures var pins := [1] + Digits(2, 2, 8) + Digits(2, 0x55, 8);
      && WellFormedPins(pins, 1, 1)
      && var once := Step(Some([0x10, 0x20, 0x30, 0x40]), pins, 1, 1, true);
      && Value(2, Levels(once.outputs)) == 0x30
      && once.content == Some([0x10, 0x20, 0x55, 0x40])
      && once.saved
      && !Step(once.content, pins, 1, 1, true).saved
  {
    var addr, data := Digits(2, 2, 8), Digits(2, 0x55, 8);
    var pins := [1] + addr + data;
    assert WellFormedPins(pins, 1, 1) && pins[0] == 1 by {
      assert pins[1..9] == addr && pins[9..] == data;
    }
    assert Address(pins, 1, 1) == 2 by {
      assert pins[1..9] == addr;
      assert Pow(2, 8) == 256;
      ValueOfDigits(2, 2, 8);
    }
    assert NewData(pins, 1, 1) == 0x55 by {
      assert pins[9..] == data;
      assert Pow(2, 8) == 256;
      ValueOfDigits(2, 0x55, 8);
    }
    WorkedTickOn(pins);
  }

  lemma WorkedTickOn(pins: seq<int>)
    requires WellFormedPins(pins, 1, 1) && pins[0] == 1
    requires Address(pins, 1, 1) == 2 && NewData(pins, 1, 1) == 0x55
    ensures var once := Step(Some([0x10, 0x20, 0x30, 0x40]), pins, 1, 1, true);
      && Value(2, Levels(once.outputs)) == 0x30
      && once.content == Some([0x10, 0x20, 0x55, 0x40])
      && once.saved
      && !Step(once.content, pins, 1, 1, true).saved
  {
    var content: Buffer := Some([0x10, 0x20, 0x30, 0x40]);
    assert OldData(content, pins, 1, 1) == 0x30 by {
      assert content.value[2..3] == [0x30];
      ValueSnoc(256, [], 0x30);
    }
    OutputsShowPreWriteWord(content, pins, 1, 1, true);
    var once := Step(content, pins, 1, 1, true);
    assert Digits(256, 0x55, 1) == [0x55];
    assert once.content.value == [0x10, 0x20, 0x55, 0x40];
    RepeatedStepIsQuiet(content, pins, 1, 1, true);
  }

  /** The MSB-first fold over `count` pins starting at `from`, as the
      address and data-in loops write it (`a <<= 1; a += pin`). */
  method FoldBits(pins: seq<int>, from: nat, count: nat) returns (v: int)
    requires from + count <= |pins|
    ensures v == Value(2, pins[from..from + count])
  {
    v := 0;
    var i := 0;
    while i < count
      invariant 0 <= i <= count
      invariant v == Value(2, pins[from..from + i])
    {
      assert pins[from..from + i + 1] == pins[from..from + i] + [pins[from + i]];
      ValueSnoc(2, pins[from..from + i], pins[from + i]);
      v := v * 2 + pins[from + i];
      i := i + 1;
    }
  }

  /** `ProcessOutput` with its loops: decode, read, drive the outputs, then
      write back and save only on a committed change. */
  method ProcessOutput(content: Buffer, pins: seq<int>, addrBusBytes: nat, dataBusBytes: nat, saveChanges: bool)
    returns (outputs: seq<int>, content': Buffer, saved: bool)
    requires ValidGeometry(addrBusBytes, dataBusBytes)
    requires WellFormedPins(pins, addrBusBytes, dataBusBytes)
    ensures StepResult(outputs, content', saved) == Step(content, pins, addrBusBytes, dataBusBytes, saveChanges)
  {
    var address := FoldBits(pins, 1, 8 * addrBusBytes);
    var index := address * dataBusBytes;
    var data := ReadData(content, index, dataBusBytes);
    outputs := DriveOutputs(data, 8 * dataBusBytes);
    content' := content;
    saved := false;
    if pins[0] > 0 {
      var newData := FoldBits(pins, 1 + 8 * addrBusBytes, 8 * dataBusBytes);
      assert pins[1 + 8 * addrBusBytes..1 + 8 * addrBusBytes + 8 * dataBusBytes] == pins[1 + 8 * addrBusBytes..];
      if newData != data {
        content' := WriteBack(content, index, dataBusBytes, newData);
        if saveChanges {
          saved := true;
        }
      }
    }
  }
}

=== FILE: eeprom.dfy ===
/** The EEPROM chip as a whole: its configuration fields, one tick of
    `ProcessOutput` against the shared content store, and the metadata
    record written by `HandleSaveMetadata` and restored by `HandleLoad`
    (Assets/Scripts/Chip/EEPROM.cs:17-24, 164-232). */
module Eeprom {
  import opened Wrappers
  import opened Radix
  import opened Memory
  import opened Bus
  import opened Store

  /** The fields of one chip that the memory engine reads. Widths are C#
      `int`s: a loaded metadata record may carry any value. */
  datatype Chip = Chip(addrBusBytes: int, dataBusBytes: int, id: string, saveChanges: bool)

  /** `EEPROMMetadata` (lines 235-246); its JSON text is treated as opaque. */
  datatype Metadata = Metadata(addrBusBytesSize: int, dataBusBytesSize: int, id: string)

  /** The `metadata` field of a saved chip: `None` for null or empty text. */
  type SavedMetadata = Option<Metadata>

  datatype TickResult = TickResult(outputs: seq<int>, store: ContentStore, saves: seq<SaveEvent>)

  predicate Configured(chip: Chip)
  {
    ValidGeometry(chip.addrBusBytes, chip.dataBusBytes)
  }

  /** One evaluation of `ProcessOutput` for `chip`: the chip reads and
      writes the buffer of its own id in place, and saves it when a changed
      write is committed and `saveChanges` is set. */
  function Tick(store: ContentStore, chip: Chip, pins: seq<int>): (r: TickResult)
    requires Configured(chip)
    requires WellFormedPins(pins, chip.addrBusBytes, chip.dataBusBytes)
    ensures r.outputs == OutputSignals(OldData(Content(store, chip.id), pins, chip.addrBusBytes, chip.dataBusBytes), 8 * chip.dataBusBytes)
    ensures Value(2, Levels(r.outputs)) == OldData(Content(store, chip.id), pins, chip.addrBusBytes, chip.dataBusBytes)
    ensures chip.id in store ==>
      Content(r.store, chip.id) == Step(Content(store, chip.id), pins, chip.addrBusBytes, chip.dataBusBytes, chip.saveChanges).content
    ensures forall other :: other != chip.id ==> Content(r.store, other) == Content(store, other)
    ensures Content(store, chip.id).None? ==> r.store == store
    ensures |r.saves| <= 1
    ensures r.saves != [] <==> chip.saveChanges && WriteCommitted(Content(store, chip.id), pins, chip.addrBusBytes, chip.dataBusBytes)
    ensures r.saves != [] ==> r.saves[0] == SaveContent(chip.id, Content(r.store, chip.id))
  {
    OutputsShowPreWriteWord(Content(store, chip.id), pins, chip.addrBusBytes, chip.dataBusBytes, chip.saveChanges);
    var s := Step(Content(store, chip.id), pins, chip.addrBusBytes, chip.dataBusBytes, chip.saveChanges);
    var store' := if chip.id in store then SetContent(store, chip.id, s.content) else store;
    TickResult(s.outputs, store', if s.saved then [SaveContent(chip.id, s.content)] else [])
  }

  /** `HandleSaveMetadata` (lines 227-232): saves the chip's content and
      records its widths and id. */
  function HandleSaveMetadata(store: ContentStore, chip: Chip): (r: (SaveEvent, SavedMetadata))
    ensures r.0.id == chip.id && r.0.content == Content(store, chip.id)
    ensures r.1.Some?
    ensures r.1.value.addrBusBytesSize == chip.addrBusBytes && r.1.value.dataBusBytesSize == chip.dataBusBytes
    ensures r.1.value.id == chip.id
  {
    (SaveContent(chip.id, Content(store, chip.id)),
     Some(Metadata(chip.addrBusBytes, chip.dataBusBytes, chip.id)))
  }

  /** `HandleLoad` (lines 214-225) without its pin rebuild: empty metadata
      changes nothing; otherwise the widths and id are taken from the record
      and the id's entry becomes `loaded`, whatever the save system returned
      for that id (possibly null). */
  function HandleLoad(chip: Chip, store: ContentStore, metadata: SavedMetadata, loaded: Buffer): (r: (Chip, ContentStore))
    ensures metadata.None? ==> r == (chip, store)
    ensures metadata.Some? ==>
      && r.0 == Chip(metadata.value.addrBusBytesSize, metadata.value.dataBusBytesSize, metadata.value.id, chip.saveChanges)
      && Content(r.1, metadata.value.id) == loaded
      && forall other :: other != metadata.value.id ==> Content(r.1, other) == Content(store, other)
  {
    match metadata
    case None => (chip, store)
    case Some(m) =>
      (chip.(addrBusBytes := m.addrBusBytesSize, dataBusBytes := m.dataBusBytesSize, id := m.id),
       SetContent(store, m.id, loaded))
  }

  /** Saving a chip and loading the saved record into any chip restores the
      widths and id exactly (but not `saveChanges`, which is not recorded),
      and, when the save system hands back what it was given, the content
      too. */
  lemma SaveThenLoadRestores(store: ContentStore, chip: Chip, target: Chip, targetStore: ContentStore)
    ensures var (saved, metadata) := HandleSaveMetadata(store, chip);
      var (chip', store') := HandleLoad(target, targetStore, metadata, saved.content);
      && chip' == chip.(saveChanges := target.saveChanges)
      && Content(store', chip.id) == Content(store, chip.id)
  {
  }

  /** Two chips with the same id share one buffer: a write through one is
      what the other reads on its next tick. */
  lemma SameIdSharesBuffer(store: ContentStore, writer: Chip, reader: Chip, pins: seq<int>, readPins: seq<int>)
    requires Configured(writer) && Configured(reader) && writer.id == reader.id
    requires WellFormedPins(pins, writer.addrBusBytes, writer.dataBusBytes)
    requires WellFormedPins(readPins, reader.addrBusBytes, reader.dataBusBytes)
    requires pins[0] > 0
    requires writer.dataBusBytes == reader.dataBusBytes
    requires Index(pins, writer.addrBusBytes, writer.dataBusBytes) == Index(readPins, reader.addrBusBytes, reader.dataBusBytes)
    requires InBounds(Content(store, writer.id), Index(pins, writer.addrBusBytes, writer.dataBusBytes), writer.dataBusBytes)
    ensures var after := Tick(store, writer, pins).store;
      OldData(Content(after, reader.id), readPins, reader.addrBusBytes, reader.dataBusBytes)
      == NewData(pins, writer.addrBusBytes, writer.dataBusBytes)
  {
    StepWriteRoundTrip(Content(store, writer.id), pins, writer.addrBusBytes, writer.dataBusBytes, writer.saveChanges);
  }
}

=== FILE: memory.dfy ===
/** The EEPROM's byte buffer and the word-level accesses `ProcessOutput`
    makes on it (Assets/Scripts/Chip/EEPROM.cs:170-202).

    A buffer may be null (`None`) and may have any length: `FlashBinary` and
    `HandleLoad` install whatever they are given, so every access is stated
    for arbitrary lengths with the bounds-guarded behaviour of the code, where
    each byte access that throws is caught and logged. */
module Memory {
  import opened Wrappers
  import opened Radix

  type byte = x: int | 0 <= x < 256

  /** A chip's content: `None` is a null array. */
  type Buffer = Option<seq<byte>>

  /** Bus widths, in bytes, for which C# `int` arithmetic in the tick never
      overflows: addresses stay below 2^24, indices below 3 * 2^24 and words
      below 2^24. */
  predicate ValidGeometry(addrBusBytes: int, dataBusBytes: int)
  {
    0 <= addrBusBytes <= 3 && 0 <= dataBusBytes <= 3
  }

  /** Length of the buffer allocated on first use: one word per address. */
  function InitSize(addrBusBytes: nat, dataBusBytes: nat): nat
  {
    Pow(2, 8 * addrBusBytes) * dataBusBytes
  }

  function ZeroBuffer(n: nat): (b: seq<byte>)
    ensures |b| == n
    ensures forall j :: 0 <= j < n ==> b[j] == 0
  {
    seq(n, _ => 0)
  }

  /** The whole word `[index, index + width)` lies inside the buffer. */
  predicate InBounds(buf: Buffer, index: nat, width: nat)
  {
    buf.Some? && index + width <= |buf.value|
  }

  /** How many bytes of the word the read loop fetches before its first
      faulting access. */
  function Reached(buf: Buffer, index: nat, width: nat): (k: nat)
    ensures k <= width
    ensures k > 0 ==> buf.Some? && index + k <= |buf.value|
    ensures k == width <==> width == 0 || InBounds(buf, index, width)
  {
    if buf.None? || |buf.value| <= index then 0
    else if |buf.value| - index < width then |buf.value| - index
    else width
  }

  function Fetched(buf: Buffer, index: nat, width: nat): (bs: seq<byte>)
    ensures |bs| == Reached(buf, index, width)
  {
    var k := Reached(buf, index, width);
    if k == 0 then [] else buf.value[index..index + k]
  }

  /** The value of the big-endian read at `index` (lines 171-180): the loop
      shifts `data` left by a byte before each access, so when the access to
      byte `k < width` faults the result is the value of the `k` bytes
      fetched so far, shifted one byte further. */
  function ReadWord(buf: Buffer, index: nat, width: nat): (data: nat)
    ensures data < Pow(256, width)
    ensures InBounds(buf, index, width) ==> data == Value(256, buf.value[index..index + width])
    ensures buf.None? || |buf.value| <= index ==> data == 0
  {
    var bs := Fetched(buf, index, width);
    var v := Value(256, bs);
    if |bs| == width then v
    else
      PowMonotone(256, |bs| + 1, width);
      FoldStepBound(256, v, 0, Pow(256, |bs|));
      v * 256
  }

  /** The buffer after the write-back loop (lines 195-202): byte `i` of the
      big-endian form of `v` goes to `index + i` when that index exists;
      accesses outside the buffer, or on a null buffer, are skipped. */
  function WriteWord(buf: Buffer, index: nat, width: nat, v: nat): (r: Buffer)
    ensures r.None? <==> buf.None?
    ensures r.Some? ==> |r.value| == |buf.value|
    ensures r.Some? ==> forall j :: 0 <= j < |r.value| && !(index <= j < index + width) ==>
                          r.value[j] == buf.value[j]
  {
    match buf
    case None => None
    case Some(b) =>
      var ds := Digits(256, v, width);
      Some(seq(|b|, j requires 0 <= j < |b| =>
        if index <= j < index + width then ds[j - index] as byte else b[j]))
  }

  /** Every byte of the window that exists receives the matching byte of
      `v`, taken by the shift-and-truncate of the code: the byte at
      `index + width - 1 - s` is `(v >> 8s) & 0xFF`. This holds also when
      only part of the window lies inside the buffer. */
  lemma WrittenBytes(buf: Buffer, index: nat, width: nat, v: nat)
    requires buf.Some?
    ensures var r := WriteWord(buf, index, width, v).value;
      forall j :: index <= j < index + width && j < |r| ==>
        r[j] == (v / Pow(256, index + width - 1 - j)) % 256
  {
    var r := WriteWord(buf, index, width, v).value;
    forall j | index <= j < index + width && j < |r|
      ensures r[j] == (v / Pow(256, index + width - 1 - j)) % 256
    {
      DigitAt(256, v, width, j - index);
    }
  }

  /** Read after write: a word written inside the buffer reads back. */
  lemma ReadAfterWrite(buf: Buffer, index: nat, width: nat, v: nat)
    requires InBounds(buf, index, width) && v < Pow(256, width)
    ensures ReadWord(WriteWord(buf, index, width, v), index, width) == v
  {
    var r := WriteWord(buf, index, width, v);
    var ds := Digits(256, v, width);
    var window := r.value[index..index + width];
    assert |window| == |ds|;
    assert forall k :: 0 <= k < width ==> window[k] == r.value[index + k] == ds[k];
    assert window == ds;
    ValueOfDigits(256, v, width);
  }

  /** Writing back the word just read changes nothing, which is why the tick
      may skip a write whose word equals the stored one. */
  lemma WriteOfReadIsIdentity(buf: Buffer, index: nat, width: nat)
    requires InBounds(buf, index, width)
    ensures WriteWord(buf, index, width, ReadWord(buf, index, width)) == buf
  {
    var w := buf.value[index..index + width];
    assert IsDigits(256, w);
    DigitsOfValue(256, w);
    var r := WriteWord(buf, index, width, ReadWord(buf, index, width));
    assert r.value == buf.value;
  }

  /** `data & (1 << k)` for a non-negative `data`. */
  function Mask(data: nat, k: nat): (m: nat)
    ensures m == 0 || m == Pow(2, k)
  {
    if (data / Pow(2, k)) % 2 == 1 then Pow(2, k) else 0
  }

  /** The signals sent to the `n` output pins (lines 183-185): pin `i`
      receives `data & (1 << (n - 1 - i))`, most significant bit first. */
  function OutputSignals(data: nat, n: nat): (outs: seq<int>)
    ensures |outs| == n
    ensures forall i :: 0 <= i < n ==> outs[i] == 0 || outs[i] == Pow(2, n - 1 - i)
  {
    seq(n, i requires 0 <= i < n => Mask(data, n - 1 - i))
  }

  /** The logic level a signal represents: any non-zero signal is high. */
  function Levels(signals: seq<int>): (bits: seq<int>)
    ensures |bits| == |signals|
    ensures IsDigits(2, bits)
  {
    seq(|signals|, i requires 0 <= i < |signals| => if signals[i] != 0 then 1 else 0)
  }

  /** The output pins carry `data` bit for bit: pin `i` is high exactly when
      digit `i` of the `n`-bit form of `data` is 1, so reading the pins back
      most significant first gives `data` again. */
  lemma OutputsCarryWord(data: nat, n: nat)
    requires data < Pow(2, n)
    ensures forall i :: 0 <= i < n ==> (OutputSignals(data, n)[i] != 0 <==> Digits(2, data, n)[i] == 1)
    ensures Value(2, Levels(OutputSignals(data, n))) == data
  {
    var outs := OutputSignals(data, n);
    forall i | 0 <= i < n
      ensures Levels(outs)[i] == Digits(2, data, n)[i]
    {
      DigitAt(2, data, n, i);
      var bit := (data / Pow(2, n - 1 - i)) % 2;
      assert bit == 0 || bit == 1;
      assert outs[i] == Mask(data, n - 1 - i);
    }
    assert Levels(outs) == Digits(2, data, n);
    ValueOfDigits(2, data, n);
  }

  /** The read loop as the code writes it: shift, fetch, stop at the first
      access that faults. */
  method ReadData(buf: Buffer, index: nat, width: nat) returns (data: nat)
    ensures data == ReadWord(buf, index, width)
  {
    data := 0;
    var i := 0;
    var faulted := false;
    while i < width && !faulted
      invariant 0 <= i <= width
      invariant i <= Reached(buf, index, width)
      invariant !faulted ==> data == Value(256, Fetched(buf, index, width)[..i])
      invariant faulted ==> i == Reached(buf, index, width) < width
                            && data == Value(256, Fetched(buf, index, width)) * 256
      decreases width - i, if faulted then 0 else 1
    {
      data := data * 256;
      if buf.None? || index + i >= |buf.value| {
        faulted := true;
        assert Fetched(buf, index, width)[..i] == Fetched(buf, index, width);
      } else {
        var bs := Fetched(buf, index, width);
        assert bs[..i + 1] == bs[..i] + [buf.value[index + i]];
        ValueSnoc(256, bs[..i], buf.value[index + i]);
        data := data + buf.value[index + i];
        i := i + 1;
      }
    }
    if !faulted {
      assert Fetched(buf, index, width)[..i] == Fetched(buf, index, width);
    }
  }

  /** The write-back loop as the code writes it: from the highest index
      down, store the low byte of `v`, then shift `v` right by a byte; each
      store that faults is skipped. */
  method WriteBack(buf: Buffer, index: nat, width: nat, v: nat) returns (r: Buffer)
    ensures r == WriteWord(buf, index, width, v)
  {
    r := buf;
    var rest := v;
    var i := width;
    ghost var ds := Digits(256, v, width);
    while i > 0
      invariant 0 <= i <= width
      invariant r.None? <==> buf.None?
      invariant r.Some? ==> |r.value| == |buf.value|
      invariant Digits(256, rest, i) == ds[..i]
      invariant r.Some? ==> forall j :: 0 <= j < |r.value| ==>
        r.value[j] == (if index + i <= j < index + width then ds[j - index] as byte else buf.value[j])
    {
      i := i - 1;
      assert Digits(256, rest, i + 1) == Digits(256, rest / 256, i) + [rest % 256];
      assert ds[..i + 1][i] == ds[i];
      if r.Some? && index + i < |r.value| {
        r := Some(r.value[index + i := rest % 256]);
      }
      rest := rest / 256;
      assert ds[..i + 1][..i] == ds[..i];
    }
    if r.Some? {
      assert r.value == WriteWord(buf, index, width, v).value;
    }
  }

  /** The output loop as the code writes it. */
  method DriveOutputs(data: nat, n: nat) returns (outs: seq<int>)
    ensures outs == OutputSignals(data, n)
  {
    outs := [];
    var i := 0;
    while i < n
      invariant 0 <= i <= n
      invariant outs == OutputSignals(data, n)[..i]
    {
      outs := outs + [Mask(data, n - i - 1)];
      i := i + 1;
    }
  }
}

=== FILE: pins.dfy ===
/** Which pin object `InitPins` stores in each slot of the input-pin array
    (Assets/Scripts/Chip/EEPROM.cs:61-74), compared with the slots
    `ProcessOutput` reads (lines 168, 186, 191) and `UpdatePinPosition`
    places (lines 112, 118). Pin objects, names and positions are not
    modelled; only the slot arithmetic is. */
module Pins {
  import opened Wrappers

  datatype PinRole = WritePin | AddrPin(bit: nat) | DataInPin(bit: nat)

  /** An input-pin array: `None` is a slot never assigned (null). */
  type Slots = seq<Option<PinRole>>

  /** The slot `k` after the three assignment loops when data-in pin `i`
      goes to slot `i + dataOffset + 1`; later loops overwrite earlier
      ones. */
  function SlotAt(addrBusBytes: nat, dataBusBytes: nat, dataOffset: nat, k: int): Option<PinRole>
  {
    if k <= 0 then Some(WritePin)
    else if dataOffset + 1 <= k < dataOffset + 1 + 8 * dataBusBytes then Some(DataInPin(k - dataOffset - 1))
    else if k <= 8 * addrBusBytes then Some(AddrPin(k - 1))
    else None
  }

  /** The input-pin array built with data-in pins at offset `dataOffset`, or
      the `IndexOutOfRangeException` the data loop raises when its last
      slot lies past the end of the array. */
  function Layout(addrBusBytes: nat, dataBusBytes: nat, dataOffset: nat): Result<Slots>
  {
    if dataBusBytes > 0 && dataOffset > 8 * addrBusBytes then Failure(IndexOutOfRange)
    else Success(seq(1 + 8 * addrBusBytes + 8 * dataBusBytes, k => SlotAt(addrBusBytes, dataBusBytes, dataOffset, k)))
  }

  /** The assignment loops of `InitPins`, for a given data-in offset. */
  method PlaceInputPins(addrBusBytes: nat, dataBusBytes: nat, dataOffset: nat) returns (r: Result<Slots>)
    ensures r == Layout(addrBusBytes, dataBusBytes, dataOffset)
  {
    var n := 1 + 8 * addrBusBytes + 8 * dataBusBytes;
    var slots: Slots := seq(n, _ => None);
    slots := slots[0 := Some(WritePin)];
    var i := 0;
    while i < 8 * addrBusBytes
      invariant 0 <= i <= 8 * addrBusBytes
      invariant |slots| == n
      invariant forall k :: 0 <= k < n ==>
        slots[k] == (if k == 0 then Some(WritePin) else if k <= i then Some(AddrPin(k - 1)) else None)
    {
      slots := slots[i + 1 := Some(AddrPin(i))];
      i := i + 1;
    }
    i := 0;
    while i < 8 * dataBusBytes
      invariant 0 <= i <= 8 * dataBusBytes
      invariant |slots| == n
      invariant i > 0 ==> i + dataOffset <= 8 * addrBusBytes + 8 * dataBusBytes
      invariant forall k :: 0 <= k < n ==>
        slots[k] == (if k == 0 then Some(WritePin)
                     else if dataOffset + 1 <= k < dataOffset + 1 + i then Some(DataInPin(k - dataOffset - 1))
                     else if k <= 8 * addrBusBytes then Some(AddrPin(k - 1))
                     else None)
    {
      if i + dataOffset + 1 >= n {
        assert dataBusBytes > 0 && dataOffset > 8 * addrBusBytes;
        assert Layout(addrBusBytes, dataBusBytes, dataOffset).Failure?;
        return Failure(IndexOutOfRange);
      }
      slots := slots[i + dataOffset + 1 := Some(DataInPin(i))];
      i := i + 1;
    }
    assert dataBusBytes > 0 ==> dataOffset <= 8 * addrBusBytes;
    assert forall k :: 0 <= k < n ==> slots[k] == SlotAt(addrBusBytes, dataBusBytes, dataOffset, k);
    assert slots == Layout(addrBusBytes, dataBusBytes, dataOffset).value;
    r := Success(slots);
  }

  /** The layout as written: data-in pin `i` at `i + 8 * dataBusBytes + 1`. */
  function InitPinsAsWritten(addrBusBytes: nat, dataBusBytes: nat): Result<Slots>
  {
    Layout(addrBusBytes, dataBusBytes, 8 * dataBusBytes)
  }

  /** The layout the rest of the chip expects: data-in pin `i` at
      `i + 8 * addrBusBytes + 1`. */
  function InitPinsCorrected(addrBusBytes: nat, dataBusBytes: nat): Result<Slots>
  {
    Layout(addrBusBytes, dataBusBytes, 8 * addrBusBytes)
  }

  /** The corrected layout never faults and puts every pin where
      `ProcessOutput` reads it: the write pin at 0, address bit `i` at
      `1 + i`, data-in bit `i` at `1 + 8 * addrBusBytes + i`. */
  lemma CorrectedLayoutMatchesBus(addrBusBytes: nat, dataBusBytes: nat)
    ensures var r := InitPinsCorrected(addrBusBytes, dataBusBytes);
      && r.Success?
      && |r.value| == 1 + 8 * addrBusBytes + 8 * dataBusBytes
      && r.value[0] == Some(WritePin)
      && (forall i :: 0 <= i < 8 * addrBusBytes ==> r.value[1 + i] == Some(AddrPin(i)))
      && (forall i :: 0 <= i < 8 * dataBusBytes ==> r.value[1 + 8 * addrBusBytes + i] == Some(DataInPin(i)))
  {
  }

  /** The layout as written agrees with the corrected one exactly when both
      buses are equally wide or there is no data bus. */
  lemma AsWrittenAgreesOnlyForEqualWidths(addrBusBytes: nat, dataBusBytes: nat)
    ensures InitPinsAsWritten(addrBusBytes, dataBusBytes) == InitPinsCorrected(addrBusBytes, dataBusBytes)
            <==> addrBusBytes == dataBusBytes || dataBusBytes == 0
  {
    var asWritten := InitPinsAsWritten(addrBusBytes, dataBusBytes);
    var corrected := InitPinsCorrected(addrBusBytes, dataBusBytes);
    if dataBusBytes == 0 {
      assert asWritten.value == corrected.value;
    } else if dataBusBytes < addrBusBytes {
      var k := 8 * dataBusBytes + 1;
      assert asWritten.value[k] == Some(DataInPin(0));
      assert corrected.value[k] == Some(AddrPin(8 * dataBusBytes));
    }
  }

  /** Two concrete inputs: with a 2-byte address and 1-byte data bus, slot
      17, where `ProcessOutput` reads data-in bit 0, is left null; with a
      1-byte address and 2-byte data bus the data loop runs off the end of
      the array. */
  lemma AsWrittenCounterexamples()
    ensures InitPinsAsWritten(2, 1).Success? && InitPinsAsWritten(2, 1).value[17] == None
    ensures InitPinsAsWritten(1, 2).Failure?
  {
  }
}

=== FILE: radix.dfy ===
/** Positional numbers read most-significant digit first.

    The chip decodes its address and data buses bit by bit (`a := 2a + bit`)
    and assembles memory words byte by byte (`data := 256*data + byte`); both
    are the same fold, here in base 2 and base 256. */
module Radix {

  function Pow(b: nat, k: nat): (r: nat)
    ensures b >= 1 ==> r >= 1
  {
    if k == 0 then 1 else b * Pow(b, k - 1)
  }

  /** Every entry of `ds` is a digit of base `b`. */
  predicate IsDigits(b: nat, ds: seq<int>)
  {
    forall i :: 0 <= i < |ds| ==> 0 <= ds[i] < b
  }

  /** The most-significant-first fold `v := b*v + d` over `ds`. */
  function Value(b: nat, ds: seq<int>): (v: int)
    ensures IsDigits(b, ds) ==> 0 <= v < Pow(b, |ds|)
  {
    if |ds| == 0 then 0
    else
      var front := Value(b, ds[..|ds| - 1]);
      assert IsDigits(b, ds) ==> IsDigits(b, ds[..|ds| - 1]) && 0 <= front < Pow(b, |ds| - 1);
      FoldStepBound(b, front, ds[|ds| - 1], Pow(b, |ds| - 1));
      front * b + ds[|ds| - 1]
  }

  /** The `n` low digits of `v` in base `b`, most significant first. */
  function Digits(b: nat, v: nat, n: nat): (ds: seq<int>)
    requires b >= 2
    ensures |ds| == n
    ensures IsDigits(b, ds)
    decreases n
  {
    if n == 0 then [] else Digits(b, v / b, n - 1) + [v % b]
  }

  lemma FoldStepBound(b: nat, front: int, d: int, p: nat)
    ensures 0 <= front < p && 0 <= d < b ==> 0 <= front * b + d < p * b
  {
    if 0 <= front < p && 0 <= d < b {
      assert front * b <= (p - 1) * b;
    }
  }

  lemma {:induction false} PowAdd(b: nat, m: nat, n: nat)
    ensures Pow(b, m + n) == Pow(b, m) * Pow(b, n)
  {
    if m > 0 {
      PowAdd(b, m - 1, n);
    }
  }

  lemma {:induction false} PowMonotone(b: nat, m: nat, n: nat)
    requires b >= 1 && m <= n
    ensures Pow(b, m) <= Pow(b, n)
  {
    if m < n {
      PowMonotone(b, m, n - 1);
      assert Pow(b, n) == b * Pow(b, n - 1);
    }
  }

  /** Eight bits make a byte: `2^(8k) == 256^k`. */
  lemma {:induction false} BitsPerByte(k: nat)
    ensures Pow(2, 8 * k) == Pow(256, k)
  {
    if k > 0 {
      BitsPerByte(k - 1);
      PowAdd(2, 8, 8 * (k - 1));
      assert Pow(2, 8) == 256;
    }
  }

  lemma MulAtLeast(k: int, b: int)
    requires b > 0 && k >= 1
    ensures k * b >= b
  {
    assert k * b == (k - 1) * b + b;
    assert (k - 1) * b >= 0;
  }

  lemma DivModOf(q: int, r: int, b: int)
    requires b > 0 && 0 <= r < b
    ensures (q * b + r) / b == q
    ensures (q * b + r) % b == r
  {
    var v := q * b + r;
    var q' := v / b;
    var r' := v % b;
    assert q' * b + r' == v;
    assert (q' - q) * b == r - r' by {
      assert (q' - q) * b == q' * b - q * b;
    }
    if q' > q {
      MulAtLeast(q' - q, b);
    } else if q' < q {
      MulAtLeast(q - q', b);
    }
  }

  lemma DivDiv(x: nat, a: nat, c: nat)
    requires a > 0 && c > 0
    ensures x / a / c == x / (a * c)
  {
    var q := x / a;
    var r := x % a;
    var q2 := q / c;
    var r2 := q % c;
    assert x == (q2 * c + r2) * a + r;
    assert r2 * a <= (c - 1) * a;
    assert x == q2 * (a * c) + (r2 * a + r);
    DivModOf(q2, r2 * a + r, a * c);
  }

  /** Dropping the last digit of a value that fits in `n` digits leaves one
      that fits in `n - 1`. */
  lemma QuotientFits(v: nat, b: nat, n: nat)
    requires b >= 2 && n > 0 && v < Pow(b, n)
    ensures v / b < Pow(b, n - 1)
  {
    var p := Pow(b, n - 1);
    assert Pow(b, n) == b * p;
    if v / b >= p {
      MulMonotone(p, v / b, b);
    }
  }

  lemma MulMonotone(x: int, y: int, c: nat)
    requires x <= y
    ensures x * c <= y * c
  {
  }

  lemma DivModSplit(v: int, b: int)
    requires b > 0
    ensures (v / b) * b + v % b == v
  {
  }

  lemma ValueSnoc(b: nat, ds: seq<int>, d: int)
    ensures Value(b, ds + [d]) == Value(b, ds) * b + d
  {
    assert (ds + [d])[..|ds|] == ds;
  }

  /** Reading back the digits of a value that fits returns the value. */
  lemma {:induction false} ValueOfDigits(b: nat, v: nat, n: nat)
    requires b >= 2 && v < Pow(b, n)
    ensures Value(b, Digits(b, v, n)) == v
    decreases n
  {
    if n > 0 {
      var q, r := v / b, v % b;
      QuotientFits(v, b, n);
      ValueOfDigits(b, q, n - 1);
      calc {
        Value(b, Digits(b, v, n));
      == { ValueSnoc(b, Digits(b, q, n - 1), r); }
        Value(b, Digits(b, q, n - 1)) * b + r;
      ==
        q * b + r;
      == { DivModSplit(v, b); }
        v;
      }
    }
  }

  /** Writing out the digits of a value read from digits gives them back. */
  lemma {:induction false} DigitsOfValue(b: nat, ds: seq<int>)
    requires b >= 2 && IsDigits(b, ds)
    ensures Digits(b, Value(b, ds), |ds|) == ds
  {
    if |ds| > 0 {
      var front := ds[..|ds| - 1];
      var last := ds[|ds| - 1];
      assert IsDigits(b, front);
      var v := Value(b, front);
      DivModOf(v, last, b);
      DigitsOfValue(b, front);
      assert ds == front + [last];
    }
  }

  /** Digit `i` (from the left) of the `n`-digit form of `v` is
      `(v / b^(n-1-i)) % b`, the shift-and-mask formula. */
  lemma {:induction false} DigitAt(b: nat, v: nat, n: nat, i: nat)
    requires b >= 2 && i < n
    ensures Digits(b, v, n)[i] == (v / Pow(b, n - 1 - i)) % b
    decreases n
  {
    if i < n - 1 {
      DigitAt(b, v / b, n - 1, i);
      DivDiv(v, b, Pow(b, n - 2 - i));
      assert b * Pow(b, n - 2 - i) == Pow(b, n - 1 - i);
    }
  }

  /** The fold is injective on digit sequences of one length. */
  lemma ValueInjective(b: nat, xs: seq<int>, ys: seq<int>)
    requires b >= 2 && IsDigits(b, xs) && IsDigits(b, ys) && |xs| == |ys|
    ensures Value(b, xs) == Value(b, ys) <==> xs == ys
  {
    if Value(b, xs) == Value(b, ys) {
      DigitsOfValue(b, xs);
      DigitsOfValue(b, ys);
    }
  }
}

=== FILE: store.dfy ===
/** The process-wide content store: `loadedMemoryContents`, a map from
    chip id to byte buffer, and the `content` property that reads and
    writes the entry of one id (Assets/Scripts/Chip/EEPROM.cs:7-13). */
module Store {
  import opened Wrappers
  import opened Radix
  import opened Memory

  /** A key may map to a null array (`None`), as after a load that found
      nothing. */
  type ContentStore = map<string, Buffer>

  /** A call to the save system's `SaveEEPROMContent(id, content)`. */
  datatype SaveEvent = SaveContent(id: string, content: Buffer)

  /** The `content` getter: `GetValueOrDefault`, null for a missing key. */
  function Content(store: ContentStore, id: string): (buf: Buffer)
    ensures id in store ==> buf == store[id]
    ensures id !in store ==> buf.None?
    ensures buf.Some? ==> id in store && store[id] == buf
  {
    if id in store then store[id] else None
  }

  /** The `content` setter: a later get for `id` returns `buf`, and the
      entry of every other id is left as it was. */
  function SetContent(store: ContentStore, id: string, buf: Buffer): (store': ContentStore)
    ensures Content(store', id) == buf
    ensures forall other :: other != id ==> Content(store', other) == Content(store, other)
    ensures store'.Keys == store.Keys + {id}
  {
    store[id := buf]
  }

  /** `InitMemoryContent` (lines 39-46): a zero-filled buffer of one word
      per address, but only when the id has none; an existing buffer is
      kept whatever its length. */
  function InitMemoryContent(store: ContentStore, id: string, addrBusBytes: nat, dataBusBytes: nat): (store': ContentStore)
    requires ValidGeometry(addrBusBytes, dataBusBytes)
    ensures Content(store, id).None? ==>
              Content(store', id) == Some(ZeroBuffer(InitSize(addrBusBytes, dataBusBytes)))
    ensures Content(store, id).Some? ==> store' == store
    ensures forall other :: other != id ==> Content(store', other) == Content(store, other)
  {
    if Content(store, id).None? then
      SetContent(store, id, Some(ZeroBuffer(InitSize(addrBusBytes, dataBusBytes))))
    else
      store
  }

  /** `FlashBinary` without its file read (lines 145-149): the entry of `id`
      becomes the given bytes, of whatever length, and is saved. */
  function FlashBinary(store: ContentStore, id: string, bytes: seq<byte>): (r: (ContentStore, SaveEvent))
    ensures Content(r.0, id) == Some(bytes)
    ensures forall other :: other != id ==> Content(r.0, other) == Content(store, other)
    ensures r.1 == SaveContent(id, Some(bytes))
  {
    var store' := SetContent(store, id, Some(bytes));
    (store', SaveContent(id, Content(store', id)))
  }

  /** A freshly sized buffer holds a whole word at every address the bus can
      carry, and every such word reads as zero. */
  lemma FreshBufferCoversAddressSpace(addrBusBytes: nat, dataBusBytes: nat, address: nat)
    requires ValidGeometry(addrBusBytes, dataBusBytes)
    requires address < Pow(2, 8 * addrBusBytes)
    ensures var buf := Some(ZeroBuffer(InitSize(addrBusBytes, dataBusBytes)));
      && InBounds(buf, address * dataBusBytes, dataBusBytes)
      && ReadWord(buf, address * dataBusBytes, dataBusBytes) == 0
  {
    var buf := ZeroBuffer(InitSize(addrBusBytes, dataBusBytes));
    MulMonotone(address + 1, Pow(2, 8 * addrBusBytes), dataBusBytes);
    var index := address * dataBusBytes;
    var window := buf[index..index + dataBusBytes];
    assert window == Digits(256, 0, dataBusBytes) by {
      ZeroDigits(dataBusBytes);
    }
    ValueOfDigits(256, 0, dataBusBytes);
  }

  lemma {:induction false} ZeroDigits(n: nat)
    ensures forall i :: 0 <= i < n ==> Digits(256, 0, n)[i] == 0
  {
    if n > 0 {
      ZeroDigits(n - 1);
    }
  }

  /** A flashed image of any length survives a later `InitMemoryContent`
      untouched: the store never reconciles a buffer with the geometry. */
  lemma FlashedImageIsNeverResized(store: ContentStore, id: string, bytes: seq<byte>, addrBusBytes: nat, dataBusBytes: nat)
    requires ValidGeometry(addrBusBytes, dataBusBytes)
    ensures var flashed := FlashBinary(store, id, bytes).0;
      Content(InitMemoryContent(flashed, id, addrBusBytes, dataBusBytes), id) == Some(bytes)
  {
  }
}

=== FILE: wrappers.dfy ===
/** Failure-compatible wrappers used across the model.
    `Option` stands for a C# reference that may be null; `Result` for an
    operation that may end in an uncaught exception. */
module Wrappers {

  datatype Option<+T> = None | Some(value: T)

  /** The exceptions the modelled code can raise without catching them. */
  datatype Fault = IndexOutOfRange

  datatype Result<+T> = Success(value: T) | Failure(fault: Fault)
}
